=== FILE: README.md ===
# flask-tpl core, modelled in Dafny

The repository is a Flask application scaffold with a small C++ side. This
project models the few pieces of it whose behaviour can be stated exactly, as
sequential, functional Dafny:

- **Password checks of the registration page** (`Register`, `Ascii`). The
  page is a record of the password field, the confirm field and the two
  message spans. `pwd_check` and `pwd_comfirm` become pure functions from one
  page to the next plus their boolean result. The regular expression
  `^(?=.*\d)(?=.*[a-z])(?=.*[A-Z])[0-9a-zA-Z]{8,}$` is modelled as written,
  lookaheads included. It is proved to mean the rule stated in the page's
  message. A one-pass scan (`MatchPassword`) is proved to decide it.
- **Log-level filters** (`LogFilters`). Level names resolve to the numbers of
  Python's `logging` module: NOTSET 0, DEBUG 10, INFO 20, WARNING/WARN 30,
  ERROR 40, CRITICAL/FATAL 50. A name that upper-cases to none of these fails
  as `getattr` does. A filter is its comparison plus the resolved level or
  levels.
- **Rotation decisions of the sized/timed rotating handler** (`Rotation`).
  This covers unit normalisation, the next time boundary (with Python's floor
  division), and the 0/1/2 rollover trigger. The clock, the size of an
  existing file and the encoded record length are integer parameters.
- **The sqlite proxies** (`Sqlite3`, `SqliteProxy`, `LegacyProxy`). The
  sqlite3 library is reduced to opaque handles, with a fresh number per
  `connect`, and a log of the calls the proxy makes. That makes "opens exactly
  one handle" and "begin, statement, commit" statable.
  - `SqliteProxy` is the current `SQLiteProxy` together with the `Proxy` base
    (`get_conn`, `get_options`).
  - `LegacyProxy` is the older version. It opens its handle with
    `autocommit=False` and brackets statements with begin/commit.
  - The locks are no-ops because the model is sequential.
- **The `get_db` scope caches** (`Registry`). This is lookup-or-insert on
  `flask.g` under `"db"`, for both versions. What they cache is the
  connection handle returned by `get_conn()` / `connect()`, not the proxy.
- **`Singleton<T>::get_inst`** (`Singleton`). A nullable static pointer and an
  allocator reduced to a next-free-address counter.

Points where the storage code may surprise a reader (the model follows the
code in each):
- the scope caches the handle, not the proxy;
- `executescript` issues no rollback and claims no atomicity;
- `commit` on a disconnected proxy fails because the handle is `None` (an
  AttributeError, modelled as `NotConnected`), not with a dedicated storage
  error;
- the two proxy versions open their handles with different `autocommit`
  settings (`VersionsDisagreeOnAutocommit`).

## Model

| member | source | states |
|---|---|---|
| `Ascii.Upper` | src/flask-tpl/src/core/log.py:18 | `str.upper()`, ASCII only: the result has the input's length and each character is the upper-case form of the one at the same position |
| `Ascii.Lower` | src/flask-tpl/src/core/log.py:88 | `str.lower()`, ASCII only: the result has the input's length and each character is the lower-case form of the one at the same position |
| `Ascii.UpperOfLower` | src/flask-tpl/src/core/log.py:18 | upper-casing a name gives the same string whether or not it was lower-cased first, so level names are case-insensitive |
| `Register.PatternMeansRule` | src/flask-tpl/static/auth/register.js:3 | the pattern, read with its lookaheads and anchors, matches exactly the strings of at least 8 ASCII letters/digits that contain a digit, a lower-case and an upper-case letter |
| `Register.PatternMatches` | src/flask-tpl/static/auth/register.js:3 | the regular expression with its lookaheads and anchors; a match is at least 8 characters, all ASCII letters or digits, with a digit, a lower-case and an upper-case letter |
| `Register.ShortPasswordRejected` | src/flask-tpl/static/auth/register.js:3 | no string shorter than 8 characters matches |
| `Register.ForeignCharacterRejected` | src/flask-tpl/static/auth/register.js:3 | no string holding a character outside [0-9a-zA-Z] matches |
| `Register.MatchPassword` | src/flask-tpl/static/auth/register.js:3-5 | a single left-to-right scan returns true exactly when the pattern matches |
| `Register.PwdCheck` | src/flask-tpl/static/auth/register.js:1-13 | accepts iff the password obeys the stated rule; on rejection the password field is emptied and the rule message shown; on acceptance the field is kept and the message cleared; the confirm side is never touched |
| `Register.PwdConfirm` | src/flask-tpl/static/auth/register.js:16-28 | accepts iff confirm equals password; on mismatch only the confirm field is cleared and the mismatch message shown; the password field and its message are never modified |
| `Register.PwdCheckIdempotent` | src/flask-tpl/static/auth/register.js:5-11 | running the password check on the page it produced gives the same page and result again |
| `Register.BothChecksPass` | src/flask-tpl/static/auth/register.js:1-28 | a page that passes both checks in order held a strong password repeated exactly in the confirm field |
| `Register.ConfirmAfterRejection` | src/flask-tpl/static/auth/register.js:5-26 | after a rejected password the confirm check passes exactly when the confirm field is empty |
| `LogFilters.ResolveAll` | src/flask-tpl/src/core/log.py:20 | a list of names resolves iff every name is a level; the result is the levels in order, one per name; failure names the first unknown name, upper-cased |
| `LogFilters.LevelOf` | src/flask-tpl/src/core/log.py:18 | a name resolves iff its upper-case spelling is one of `logging`'s level names; every level is a multiple of ten from 0 to 50 |
| `LogFilters.Resolve` | src/flask-tpl/src/core/log.py:10-20 | a single name resolves to its one level or fails naming it upper-cased; a list of zero or at least two names resolves to its levels in order iff every name is a level |
| `LogFilters.Build` | src/flask-tpl/src/core/log.py:10-25 | builds iff the levels resolve, with the given comparison over the resolved levels; fails with the resolution error otherwise |
| `LogFilters.Accepts` | src/flask-tpl/src/core/log.py:22-23 | applies the comparison to the record level and the resolved levels; eq/ne, gt/le, ge/lt and in/not in are complementary pairs, and `in` means equal to some element |
| `LogFilters.Eq` | src/flask-tpl/src/core/log.py:17-30 | builds iff the name is a level (else fails naming it upper-cased); the filter accepts a record iff its level equals the name's number |
| `LogFilters.Ne` | src/flask-tpl/src/core/log.py:32-35 | the filter accepts a record iff its level differs from the name's number |
| `LogFilters.Gt` | src/flask-tpl/src/core/log.py:37-40 | the filter accepts iff the record level is above the name's number |
| `LogFilters.Ge` | src/flask-tpl/src/core/log.py:42-45 | the filter accepts iff the record level is at or above the name's number |
| `LogFilters.Lt` | src/flask-tpl/src/core/log.py:47-50 | the filter accepts iff the record level is below the name's number |
| `LogFilters.Le` | src/flask-tpl/src/core/log.py:52-55 | the filter accepts iff the record level is at or below the name's number |
| `LogFilters.Include` | src/flask-tpl/src/core/log.py:57-59 | for a list that is not a singleton: builds iff all names are levels; accepts iff the record level is the number of one of the names |
| `LogFilters.Exclude` | src/flask-tpl/src/core/log.py:61-63 | builds under the same condition; accepts iff the record level is the number of none of the names |
| `LogFilters.NeComplementsEq` | src/flask-tpl/src/core/log.py:28-35 | ne(L) accepts exactly the records eq(L) rejects |
| `LogFilters.OrderingFiltersSplit` | src/flask-tpl/src/core/log.py:37-55 | for every record level exactly one of gt(L)/le(L) accepts, and exactly one of ge(L)/lt(L) |
| `LogFilters.ExcludeComplementsInclude` | src/flask-tpl/src/core/log.py:57-63 | exlude(names) accepts exactly the records include(names) rejects |
| `LogFilters.CaseInsensitive` | src/flask-tpl/src/core/log.py:17-18 | a name and its lower-case spelling build identical filters (or identical failures) for every comparison |
| `LogFilters.CaseInsensitiveList` | src/flask-tpl/src/core/log.py:20 | lower-casing every name of a list leaves its resolution unchanged |
| `LogFilters.InfoInAnyCase` | src/flask-tpl/src/core/log.py:18 | "info" and "INFO" both resolve to 20 |
| `Rotation.UnitSeconds` | src/flask-tpl/src/core/log.py:99-106 | after lower-casing, s, m and h map to 1, 60 and 3600 seconds; every other unit, d included, maps to 86400 |
| `Rotation.UnitCaseInsensitive` | src/flask-tpl/src/core/log.py:88-106 | the unit is case-insensitive: its lower-case and upper-case spellings give the same interval as the unit itself |
| `Rotation.IntervalSeconds` | src/flask-tpl/src/core/log.py:99-106 | on a lower-cased unit the result is 1, 60, 3600 or 86400 seconds, and 86400 exactly when the unit is not s, m or h |
| `Rotation.FloorDiv` | src/flask-tpl/src/core/log.py:111 | Python's `//`: the quotient q with d*q <= a < d*q + d for a positive divisor, and d*q + d < a <= d*q for a negative one |
| `Rotation.NextRollover` | src/flask-tpl/src/core/log.py:108-111 | for a positive interval the boundary is a multiple of the interval, after now and at most one interval away; for a negative one it lies before now |
| `Rotation.NextRolloverIsLeast` | src/flask-tpl/src/core/log.py:111 | no multiple of a positive interval that lies after now is smaller than the boundary |
| `Rotation.NewHandler` | src/flask-tpl/src/core/log.py:68-97 | fails iff the interval is zero; otherwise stores the lower-cased unit, the interval in seconds, the other parameters unchanged, the first boundary `compute_next_rollover` gives for now (for a positive interval, a multiple of it within one interval after now), and the existing file size or 0; the defaults are max_bytes 0, backup_count 0, unit "h", interval 1 |
| `Rotation.ShouldRollover` | src/flask-tpl/src/core/log.py:113-119 | 1 iff now has reached the boundary, whatever the size; 2 iff not and max_bytes is positive and size plus record length reaches it; 0 otherwise |
| `Rotation.DueStaysDue` | src/flask-tpl/src/core/log.py:114-115 | once due by time, the handler stays due at every later instant for every record |
| `Rotation.NoLimitNoSizeTrigger` | src/flask-tpl/src/core/log.py:116 | with max_bytes at most 0 the size trigger never fires |
| `Rotation.SizeTriggerMonotone` | src/flask-tpl/src/core/log.py:116-117 | a longer record cannot undo a size trigger |
| `Rotation.FreshHandlerNotDue` | src/flask-tpl/src/core/log.py:88-115 | a handler built with a positive interval is not due by time at the instant it was built, nor at any instant before its first boundary |
| `Rotation.NegativeIntervalAlwaysDue` | src/flask-tpl/src/core/log.py:88-115 | a handler built with a negative interval is due by time from the instant it was built |
| `Rotation.DefaultHandlerHourly` | src/flask-tpl/src/core/log.py:68-119 | with every default the handler rotates hourly on the hour, never by size, and nothing is due at the instant it is built |
| `Sqlite3.ParamsOrEmpty` | src/flask-tpl/src/db/_sqlite.py:43 | `params or ()`: the empty tuple exactly when no parameters or an empty tuple are given; any given tuple is passed on unchanged (also db/_sqlite.py:43 and :46 in the older version) |
| `SqliteProxy.New` | src/flask-tpl/src/db/_sqlite.py:11-15 | a new proxy holds no handle and keeps the options it was given |
| `SqliteProxy.Connect` | src/flask-tpl/src/db/_sqlite.py:17-27 | from disconnected, opens exactly one fresh autocommit handle on options.dbpath and adds exactly its id to the live handles; when connected, changes nothing; keeps the proxy valid |
| `SqliteProxy.Close` | src/flask-tpl/src/db/_sqlite.py:29-34 | ends disconnected; when connected, closes the held handle so it is no longer live; when disconnected, changes nothing |
| `SqliteProxy.Commit` | src/flask-tpl/src/db/_sqlite.py:36-38 | fails iff disconnected (no auto-connect); otherwise commits on the held handle and changes no proxy state |
| `SqliteProxy.Execute` | src/flask-tpl/src/db/_sqlite.py:40-44 | always ends connected; reuses a held handle, or opens exactly one first; the statement runs on that handle with `params or ()` |
| `SqliteProxy.ExecuteScript` | src/flask-tpl/src/db/_sqlite.py:46-50 | always ends connected; reuses a held handle or opens one; the script runs on that handle |
| `SqliteProxy.GetConn` | src/flask-tpl/src/db/base.py:35-38 | returns the held handle without reconnecting, or connects first and returns the new handle; the handle returned is live |
| `SqliteProxy.GetConnRepeats` | src/flask-tpl/src/db/base.py:35-38 | a second get_conn returns the same handle and changes nothing |
| `SqliteProxy.GetOptions` | src/flask-tpl/src/db/base.py:32-33 | returns the options the proxy holds; a new proxy on them is this proxy without its handle |
| `SqliteProxy.OptionsBoundAtConstruction` | src/flask-tpl/src/db/base.py:32-33 | after any sequence of operations get_options returns the options given at construction |
| `SqliteProxy.RunKeepsOptions` | src/flask-tpl/src/db/_sqlite.py:17-50 | no operation rebinds the options |
| `SqliteProxy.RunPreservesValid` | src/flask-tpl/src/db/_sqlite.py:17-50 | any sequence of operations keeps the held handle live, on the proxy's path and in autocommit mode, and only appends to the library log |
| `SqliteProxy.RunKeepsOneLive` | src/flask-tpl/src/db/_sqlite.py:17-50 | at most one live handle per proxy: if the live handles are exactly the held one (or none), they stay so after any sequence of operations |
| `SqliteProxy.FreshProxyOneLive` | src/flask-tpl/src/db/_sqlite.py:17-34 | a new proxy on a fresh library has, after any operations, only its held handle open, or none after close |
| `SqliteProxy.HandleStableWithoutClose` | src/flask-tpl/src/db/_sqlite.py:17-50 | without close, a connected proxy keeps its handle through any operations and opens no other |
| `SqliteProxy.ConnectIdempotent` | src/flask-tpl/src/db/_sqlite.py:19-20 | connecting twice is connecting once |
| `SqliteProxy.CloseIdempotent` | src/flask-tpl/src/db/_sqlite.py:31-34 | closing twice is closing once |
| `SqliteProxy.ExecuteAfterClose` | src/flask-tpl/src/db/_sqlite.py:29-41 | after close, execute reconnects on a fresh handle different from the closed one |
| `SqliteProxy.DefaultOptionsInMemory` | src/flask-tpl/src/db/_sqlite.py:6-7 | a proxy on default options opens ":memory:" |
| `SqliteProxy.CommitBeforeConnectFails` | src/flask-tpl/src/db/_sqlite.py:36-38 | commit on a fresh proxy fails |
| `LegacyProxy.New` | src/flask-tpl/db/_sqlite.py:6-9 | a new legacy proxy holds no handle and keeps its path |
| `LegacyProxy.Connect` | src/flask-tpl/db/_sqlite.py:11-21 | returns the held handle unchanged, or opens exactly one non-autocommit handle on the path with no transaction open, adds exactly its id to the live handles, and returns it |
| `LegacyProxy.Close` | src/flask-tpl/db/_sqlite.py:23-27 | ends disconnected; closes the held handle if any, dropping its transaction and opening nothing; otherwise changes nothing |
| `LegacyProxy.StartTransaction` | src/flask-tpl/db/_sqlite.py:29-30 | fails iff disconnected (no auto-connect); otherwise issues begin and marks the transaction open; the path, the open count and the live handles are unchanged |
| `LegacyProxy.Commit` | src/flask-tpl/db/_sqlite.py:32-33 | fails iff disconnected; otherwise issues commit and marks the transaction closed; the path, the open count and the live handles are unchanged |
| `LegacyProxy.Rollback` | src/flask-tpl/db/_sqlite.py:35-36 | fails iff disconnected; otherwise issues rollback and marks the transaction closed; the path, the open count and the live handles are unchanged |
| `LegacyProxy.Execute` | src/flask-tpl/db/_sqlite.py:38-47 | connects first; with autocommit issues begin, the statement, commit and leaves no transaction open; without it issues the statement alone and leaves the transaction state as connecting left it |
| `LegacyProxy.ExecuteScript` | src/flask-tpl/db/_sqlite.py:49-55 | connects first, then issues begin, the script and commit, ending with no transaction open |
| `LegacyProxy.RunPreservesValid` | src/flask-tpl/db/_sqlite.py:11-55 | any sequence of operations keeps the held handle live, on the path and non-autocommit, and only appends to the library log |
| `LegacyProxy.RunKeepsOneLive` | src/flask-tpl/db/_sqlite.py:11-55 | at most one live handle per proxy: if the live handles are exactly the held one (or none), they stay so after any sequence of operations |
| `LegacyProxy.FreshProxyOneLive` | src/flask-tpl/db/_sqlite.py:11-27 | a new proxy on a fresh library has, after any operations, only its held handle open, or none after close |
| `LegacyProxy.HandleStableWithoutClose` | src/flask-tpl/db/_sqlite.py:11-55 | without close, a connected legacy proxy keeps its handle and opens no other |
| `LegacyProxy.ConnectIdempotent` | src/flask-tpl/db/_sqlite.py:11-21 | repeated connect returns the same handle and changes nothing |
| `LegacyProxy.CloseIdempotent` | src/flask-tpl/db/_sqlite.py:23-27 | closing twice is closing once |
| `LegacyProxy.ManualTransaction` | src/flask-tpl/db/_sqlite.py:29-46 | begin, a statement without autocommit, then commit: the library sees exactly those three calls and the transaction ends closed |
| `LegacyProxy.PlainExecuteAutocommits` | src/flask-tpl/db/_sqlite.py:38-47 | `execute(sql)` with the default `params=None, autocommit=True` issues begin, the statement with no parameters, and commit, leaving no transaction open |
| `LegacyProxy.ScriptOnFreshProxy` | src/flask-tpl/db/_sqlite.py:49-61 | a script on a fresh proxy opens one handle on the path, then begins, runs the script and commits |
| `Registry.GetDb` | src/flask-tpl/src/db/__init__.py:7-20 | with "db" present returns it and changes nothing; otherwise opens exactly one autocommit handle on the configured path, stores it under "db" and returns it; other attributes untouched |
| `Registry.LegacyGetDb` | src/flask-tpl/db/__init__.py:5-13 | the same for the older version, with a non-autocommit handle from `connect()` |
| `Registry.GetDbTwice` | src/flask-tpl/src/db/__init__.py:12-20 | a second get_db in the same scope returns the identical value and opens nothing |
| `Registry.LegacyGetDbTwice` | src/flask-tpl/db/__init__.py:8-13 | the same for the older version |
| `Registry.CachesTheConnection` | src/flask-tpl/src/db/__init__.py:15-19 | what is cached is the handle get_conn returns for a proxy on the configured path, not the proxy |
| `Registry.VersionsDisagreeOnAutocommit` | src/flask-tpl/db/_sqlite.py:14-19 | the current version caches an autocommit handle, the older one a non-autocommit handle |
| `Singleton.Start` | src/cxx/include/singleton.h:26-27 | the instance pointer starts null |
| `Singleton.GetInst` | src/cxx/include/singleton.h:18-22 | never returns null; allocates only when the pointer is null and then stores the new pointer; otherwise returns the stored one and changes nothing |
| `Singleton.AtMostOneAllocation` | src/cxx/include/singleton.h:20 | over any number of calls at most one allocation happens, exactly when the pointer started null and there was a call |
| `Singleton.AllCallsAgree` | src/cxx/include/singleton.h:18-21 | every call returns the same non-null pointer, and after the first nothing changes |
| `Singleton.FromStart` | src/cxx/include/singleton.h:18-27 | from the null start the first call allocates the next free address and every call returns it |

## Left out

- Locks (`threading.Lock` in both proxies) and the spinlock in src/cxx/main.cxx exist for concurrency. The model is sequential and each lock is a no-op.
- The abstract `Options`/`Proxy` base class hooks (src/flask-tpl/src/db/base.py:12-30) have empty bodies. `super().connect()`, `close()` and `commit()` change nothing, so the subclass operations are modelled without them.
- sqlite3 itself is out of scope: SQL parsing, rows, real transaction behaviour and connect failures. A handle is an opaque token and results are the handle the statement ran on.
- LegacyProxy.Execute: the transaction flag records the proxy's own begin/commit bracketing, not Python sqlite3's behaviour with `autocommit=False`. That driver keeps a transaction open at all times, so the real `begin transaction` would be rejected. Nested begins are not modelled either.
- LegacyProxy.ExecuteScript: the driver's transaction behaviour is not modelled, as for `Execute`. The code never rolls back on error, so no atomicity is claimed.
- Options validation and connect-time errors belong to the library and are not modelled.
- Real time, floats and the file system in log.py: `time.time()` is an integer `now`, `os.stat` is an optional size, and the encoded record length is a natural number.
- do_rollover and emit (log.py:121-128) are unfinished (the one builds a name and stops; the other never updates the size). They are not modelled.
- Rotation.NewHandler: `now` is an integer, while `time.time()` is a float. For a positive interval this loses nothing, since flooring twice equals flooring once. For a negative interval the stored boundary can differ: at 6.5 with interval -3 the source stores 6.0 and the model, at 6, stores 3. Both lie before now, so the handler is due either way.
- Rotation.NewHandler: `filename`, `mode`, `encoding`, `delay` and `errors` go to the logging base class and are not modelled. `utc` and `backup_count` are only stored.
- LogFilters.Include and LogFilters.Exclude: a one-element list is outside their domain because the source calls `.upper()` on the list and crashes. A string argument is not accepted either; the source would test `in` against an integer.
- LogFilters.Eq, Ne, Gt, Ge, Lt, Le take a single name, as their annotations say. A list passed to them would compare an integer with a list.
- LogFilters.LevelOf: only the level names of `logging` resolve. `getattr` would also return other module attributes (for example `BASIC_FORMAT`) and compare against them.
- Ascii.Upper and Ascii.Lower are ASCII only. Python's `str.upper`/`str.lower` also map non-ASCII letters; for example `"ı".upper()` is `"I"`.
- The `Singleton` allocator is a next-free-address counter. `new T()` throwing and the constructor's console output are not modelled.
- Flask and CLI glue (app.py, blueprints, auth views, commands.py, config.py), the logger configuration wrapper, the parse helpers and the DAO layer have no behaviour of their own here. The configured database path is a parameter of `get_db`.
- Scope teardown: neither `get_db` closes the cached handle and nothing in the code does, so the model has no teardown.

=== FILE: ascii.dfy ===
/** ASCII character classes and case mapping, as used by the password pattern
    and by the level-name and rotation-unit normalisation of the logging code. */
module Ascii {

  predicate IsDigit(c: char) { '0' <= c <= '9' }

  predicate IsLower(c: char) { 'a' <= c <= 'z' }

  predicate IsUpper(c: char) { 'A' <= c <= 'Z' }

  predicate IsAlnum(c: char) { IsDigit(c) || IsLower(c) || IsUpper(c) }

  /** Upper-cases one ASCII letter; every other character is kept. */
  function UpperChar(c: char): char
  {
    if IsLower(c) then (c as int - 32) as char else c
  }

  /** Lower-cases one ASCII letter; every other character is kept. */
  function LowerChar(c: char): char
  {
    if IsUpper(c) then (c as int + 32) as char else c
  }

  /** `str.upper()` restricted to ASCII: the string with each character upper-cased. */
  function Upper(s: string): (r: string)
    ensures |r| == |s|
    ensures forall i :: 0 <= i < |s| ==> r[i] == UpperChar(s[i])
  {
    if s == [] then [] else [UpperChar(s[0])] + Upper(s[1..])
  }

  /** `str.lower()` restricted to ASCII: the string with each character lower-cased. */
  function Lower(s: string): (r: string)
    ensures |r| == |s|
    ensures forall i :: 0 <= i < |s| ==> r[i] == LowerChar(s[i])
  {
    if s == [] then [] else [LowerChar(s[0])] + Lower(s[1..])
  }

  /** Upper-casing forgets whatever lower-casing did first, so two spellings
      that differ only in case upper-case to the same string. */
  lemma UpperOfLower(s: string)
    ensures Upper(Lower(s)) == Upper(s)
  {
  }

  /** Lower-casing twice is lower-casing once. */
  lemma LowerIdempotent(s: string)
    ensures Lower(Lower(s)) == Lower(s)
  {
  }

  /** Lower-casing forgets whatever upper-casing did first. */
  lemma LowerOfUpper(s: string)
    ensures Lower(Upper(s)) == Lower(s)
  {
  }
}

=== FILE: legacy_proxy.dfy ===
/** The older `SQLiteProxy` of db/_sqlite.py. It is built from a path alone,
    opens its handle with `autocommit=False`, returns the handle from
    `connect`, and brackets statements with explicit begin and commit. The
    `inTxn` flag of a connection records that bracketing: `start_transaction`
    sets it, `commit` and `roolback` clear it, and it goes away with the handle
    on `close`. The lock is a no-op in this sequential model. */
module LegacyProxy {
  import opened Results
  import opened Sqlite3

  datatype Conn = Conn(handle: Handle, inTxn: bool)

  datatype Proxy = Proxy(path: string, conn: Option<Conn>)

  datatype Sys = Sys(proxy: Proxy, engine: Engine)

  datatype Got = Got(sys: Sys, handle: Handle)

  /** What `execute` and `executescript` hand back: the handle the statements
      ran on. */
  datatype Ran = Ran(sys: Sys, cursor: Handle)

  /** `SQLiteProxy(path)`. */
  function New(path: string): (p: Proxy)
    ensures p.path == path && p.conn.None?
  {
    Proxy(path, None)
  }

  /** The held handle is open, was opened on the proxy's path, and is not in
      autocommit mode. */
  predicate Valid(s: Sys)
  {
    && Sqlite3.Valid(s.engine)
    && (s.proxy.conn.Some? ==>
          && s.proxy.conn.value.handle.id in s.engine.live
          && s.proxy.conn.value.handle.path == s.proxy.path
          && !s.proxy.conn.value.handle.autocommit)
  }

  predicate Connected(s: Sys) { s.proxy.conn.Some? }

  /** `connect`: open a handle on the path unless one is held, and return the
      held handle. */
  function Connect(s: Sys): (r: Got)
    ensures r.sys.proxy.path == s.proxy.path
    ensures r.sys.proxy.conn.Some? && r.sys.proxy.conn.value.handle == r.handle
    ensures s.proxy.conn.Some? ==> r.sys == s && r.handle == s.proxy.conn.value.handle
    ensures s.proxy.conn.None? ==>
              && r.handle == Handle(s.engine.openCount, s.proxy.path, false)
              && !r.sys.proxy.conn.value.inTxn
              && r.sys.engine.openCount == s.engine.openCount + 1
              && r.sys.engine.live == s.engine.live + {r.handle.id}
              && r.sys.engine.calls == s.engine.calls + [OpenCall(r.handle)]
    ensures Valid(s) ==> Valid(r.sys) && r.handle.id in r.sys.engine.live
  {
    match s.proxy.conn
    case Some(c) => Got(s, c.handle)
    case None =>
      var o := Sqlite3.Open(s.engine, s.proxy.path, false);
      Got(Sys(s.proxy.(conn := Some(Conn(o.handle, false))), o.engine), o.handle)
  }

  /** `close`: release the handle, and with it any open transaction. */
  function Close(s: Sys): (r: Sys)
    ensures r.proxy.conn.None? && r.proxy.path == s.proxy.path
    ensures s.proxy.conn.None? ==> r == s
    ensures s.proxy.conn.Some? ==>
              && r.engine.calls == s.engine.calls + [CloseCall(s.proxy.conn.value.handle)]
              && s.proxy.conn.value.handle.id !in r.engine.live
              && r.engine.openCount == s.engine.openCount
    ensures Valid(s) ==> Valid(r)
  {
    match s.proxy.conn
    case None => s
    case Some(c) => Sys(s.proxy.(conn := None), Sqlite3.Close(s.engine, c.handle))
  }

  /** Issue `call` on the held handle and set its transaction flag. */
  function OnHandle(s: Sys, call: Handle -> Call, inTxn: bool): (r: Sys)
    requires Connected(s)
    ensures r.proxy == s.proxy.(conn := Some(s.proxy.conn.value.(inTxn := inTxn)))
    ensures r.engine.calls == s.engine.calls + [call(s.proxy.conn.value.handle)]
    ensures r.engine.openCount == s.engine.openCount && r.engine.live == s.engine.live
  {
    var c := s.proxy.conn.value;
    Sys(s.proxy.(conn := Some(c.(inTxn := inTxn))), Issue(s.engine, call(c.handle)))
  }

  /** Run `call` on the held handle if there is one; there is no auto-connect,
      so without a handle the call raises. */
  function Guarded(s: Sys, call: Handle -> Call, inTxn: bool): (r: Result<Sys, ProxyError>)
    ensures r.Err? <==> !Connected(s)
    ensures r.Ok? ==> && r.value.proxy.path == s.proxy.path
                      && r.value.engine.openCount == s.engine.openCount
                      && r.value.engine.live == s.engine.live
  {
    if Connected(s) then Ok(OnHandle(s, call, inTxn)) else Err(NotConnected)
  }

  /** `start_transaction`: `begin transaction` on the held handle. */
  function StartTransaction(s: Sys): (r: Result<Sys, ProxyError>)
    ensures r.Err? <==> s.proxy.conn.None?
    ensures r.Ok? ==> && r.value.proxy.conn == Some(Conn(s.proxy.conn.value.handle, true))
                      && r.value.engine.calls == s.engine.calls + [BeginCall(s.proxy.conn.value.handle)]
    ensures r.Ok? && Valid(s) ==> Valid(r.value)
    ensures r.Ok? ==> && r.value.proxy.path == s.proxy.path
                      && r.value.engine.openCount == s.engine.openCount
                      && r.value.engine.live == s.engine.live
  {
    Guarded(s, h => BeginCall(h), true)
  }

  /** `commit` on the held handle. */
  function Commit(s: Sys): (r: Result<Sys, ProxyError>)
    ensures r.Err? <==> s.proxy.conn.None?
    ensures r.Ok? ==> && r.value.proxy.conn == Some(Conn(s.proxy.conn.value.handle, false))
                      && r.value.engine.calls == s.engine.calls + [CommitCall(s.proxy.conn.value.handle)]
    ensures r.Ok? && Valid(s) ==> Valid(r.value)
    ensures r.Ok? ==> && r.value.proxy.path == s.proxy.path
                      && r.value.engine.openCount == s.engine.openCount
                      && r.value.engine.live == s.engine.live
  {
    Guarded(s, h => CommitCall(h), false)
  }

  /** `roolback` on the held handle. */
  function Rollback(s: Sys): (r: Result<Sys, ProxyError>)
    ensures r.Err? <==> s.proxy.conn.None?
    ensures r.Ok? ==> && r.value.proxy.conn == Some(Conn(s.proxy.conn.value.handle, false))
                      && r.value.engine.calls == s.engine.calls + [RollbackCall(s.proxy.conn.value.handle)]
    ensures r.Ok? && Valid(s) ==> Valid(r.value)
    ensures r.Ok? ==> && r.value.proxy.path == s.proxy.path
                      && r.value.engine.openCount == s.engine.openCount
                      && r.value.engine.live == s.engine.live
  {
    Guarded(s, h => RollbackCall(h), false)
  }

  /** `execute`: connect first; with `autocommit` issue begin, the statement
      and commit, otherwise the statement alone, leaving the transaction flag
      as connecting left it. */
  function Execute(s: Sys, sql: string, params: Option<seq<string>> := None, autocommit: bool := true): (r: Ran)
    ensures r.sys.proxy.path == s.proxy.path
    ensures r.sys.proxy.conn.Some? && r.sys.proxy.conn.value.handle == r.cursor
    ensures r.cursor == Connect(s).handle
    ensures var c := Connect(s).sys;
            var stmt := ExecCall(r.cursor, sql, ParamsOrEmpty(params));
            if autocommit then
              && r.sys.engine.calls == c.engine.calls + [BeginCall(r.cursor), stmt, CommitCall(r.cursor)]
              && !r.sys.proxy.conn.value.inTxn
            else
              && r.sys.engine.calls == c.engine.calls + [stmt]
              && r.sys.proxy.conn == c.proxy.conn
    ensures r.sys.engine.openCount == Connect(s).sys.engine.openCount
    ensures Valid(s) ==> Valid(r.sys)
  {
    var c := Connect(s).sys;
    var inTxn := c.proxy.conn.value.inTxn;
    var h := c.proxy.conn.value.handle;
    if autocommit then
      var b := OnHandle(c, h => BeginCall(h), true);
      var x := OnHandle(b, h => ExecCall(h, sql, ParamsOrEmpty(params)), true);
      Ran(OnHandle(x, h => CommitCall(h), false), h)
    else
      Ran(OnHandle(c, h => ExecCall(h, sql, ParamsOrEmpty(params)), inTxn), h)
  }

  /** `executescript`: connect first, then begin, run the script, and commit. */
  function ExecuteScript(s: Sys, sql: string): (r: Ran)
    ensures r.sys.proxy.path == s.proxy.path
    ensures r.sys.proxy.conn.Some? && r.sys.proxy.conn.value.handle == r.cursor
    ensures r.cursor == Connect(s).handle
    ensures r.sys.engine.calls
              == Connect(s).sys.engine.calls + [BeginCall(r.cursor), ScriptCall(r.cursor, sql), CommitCall(r.cursor)]
    ensures !r.sys.proxy.conn.value.inTxn
    ensures r.sys.engine.openCount == Connect(s).sys.engine.openCount
    ensures Valid(s) ==> Valid(r.sys)
  {
    var c := Connect(s).sys;
    var h := c.proxy.conn.value.handle;
    var b := OnHandle(c, h => BeginCall(h), true);
    var x := OnHandle(b, h => ScriptCall(h, sql), true);
    Ran(OnHandle(x, h => CommitCall(h), false), h)
  }

  /** The operations a caller can apply to a legacy proxy. */
  datatype Op =
    | ConnectOp
    | CloseOp
    | BeginOp
    | CommitOp
    | RollbackOp
    | ExecuteOp(sql: string, params: Option<seq<string>>, autocommit: bool)
    | ScriptOp(sql: string)

  function Step(s: Sys, op: Op): Result<Sys, ProxyError>
  {
    match op
    case ConnectOp => Ok(Connect(s).sys)
    case CloseOp => Ok(Close(s))
    case BeginOp => StartTransaction(s)
    case CommitOp => Commit(s)
    case RollbackOp => Rollback(s)
    case ExecuteOp(sql, params, autocommit) => Ok(Execute(s, sql, params, autocommit).sys)
    case ScriptOp(sql) => Ok(ExecuteScript(s, sql).sys)
  }

  /** Apply the operations in order, stopping at the first that raises. */
  function Run(s: Sys, ops: seq<Op>): Result<Sys, ProxyError>
    decreases |ops|
  {
    if ops == [] then Ok(s)
    else match Step(s, ops[0])
      case Err(e) => Err(e)
      case Ok(t) => Run(t, ops[1..])
  }

  /** Every sequence of operations keeps the proxy valid and its path fixed. */
  lemma {:induction false} RunPreservesValid(s: Sys, ops: seq<Op>)
    requires Valid(s)
    requires Run(s, ops).Ok?
    ensures Valid(Run(s, ops).value)
    ensures Run(s, ops).value.proxy.path == s.proxy.path
    ensures s.engine.calls <= Run(s, ops).value.engine.calls
    decreases |ops|
  {
    if ops != [] {
      var t := Step(s, ops[0]).value;
      RunPreservesValid(t, ops[1..]);
    }
  }

  /** At most one live handle per proxy: the library's open handles are
      exactly the one the proxy holds, or none when it holds none. */
  predicate OneLive(s: Sys)
  {
    s.engine.live == (if s.proxy.conn.Some? then {s.proxy.conn.value.handle.id} else {})
  }

  /** Connect opens only from no handle and close closes before forgetting,
      so no sequence of operations leaves a second handle open. */
  lemma {:induction false} RunKeepsOneLive(s: Sys, ops: seq<Op>)
    requires OneLive(s)
    requires Run(s, ops).Ok?
    ensures OneLive(Run(s, ops).value)
    decreases |ops|
  {
    if ops != [] {
      var t := Step(s, ops[0]).value;
      RunKeepsOneLive(t, ops[1..]);
    }
  }

  /** A proxy built on a fresh library never has more than its one handle open. */
  lemma FreshProxyOneLive(path: string, ops: seq<Op>)
    requires Run(Sys(New(path), Initial), ops).Ok?
    ensures OneLive(Run(Sys(New(path), Initial), ops).value)
  {
    RunKeepsOneLive(Sys(New(path), Initial), ops);
  }

  predicate NoClose(ops: seq<Op>)
  {
    forall i :: 0 <= i < |ops| ==> ops[i] != CloseOp
  }

  /** While nobody closes it, a connected proxy keeps its handle and opens no
      other, whatever else is called. */
  lemma {:induction false} HandleStableWithoutClose(s: Sys, ops: seq<Op>)
    requires s.proxy.conn.Some?
    requires NoClose(ops)
    requires Run(s, ops).Ok?
    ensures Run(s, ops).value.proxy.conn.Some?
    ensures Run(s, ops).value.proxy.conn.value.handle == s.proxy.conn.value.handle
    ensures Run(s, ops).value.engine.openCount == s.engine.openCount
    decreases |ops|
  {
    if ops != [] {
      var t := Step(s, ops[0]).value;
      assert t.proxy.conn.Some? && t.proxy.conn.value.handle == s.proxy.conn.value.handle;
      HandleStableWithoutClose(t, ops[1..]);
    }
  }

  /** `connect` returns the same handle however often it is called. */
  lemma ConnectIdempotent(s: Sys)
    ensures Connect(Connect(s).sys) == Got(Connect(s).sys, Connect(s).handle)
  {
  }

  lemma CloseIdempotent(s: Sys)
    ensures Close(Close(s)) == Close(s)
  {
  }

  /** A manual transaction: begin, a statement without autocommit, commit. The
      library sees exactly those three calls and the transaction ends closed. */
  lemma ManualTransaction(s: Sys, sql: string, params: Option<seq<string>>)
    requires Connected(s)
    ensures var b := StartTransaction(s);
            && b.Ok?
            && var x := Execute(b.value, sql, params, false);
               && x.sys.proxy.conn.value.inTxn
               && var c := Commit(x.sys);
                  && c.Ok?
                  && !c.value.proxy.conn.value.inTxn
                  && c.value.engine.calls == s.engine.calls
                       + [BeginCall(x.cursor), ExecCall(x.cursor, sql, ParamsOrEmpty(params)), CommitCall(x.cursor)]
  {
  }

  /** A plain `execute(sql)` takes the defaults `params=None` and
      `autocommit=True`: begin, the statement with no parameters, commit. */
  lemma PlainExecuteAutocommits(s: Sys, sql: string)
    ensures var r := Execute(s, sql);
            && r.sys.engine.calls == Connect(s).sys.engine.calls
                 + [BeginCall(r.cursor), ExecCall(r.cursor, sql, []), CommitCall(r.cursor)]
            && !r.sys.proxy.conn.value.inTxn
  {
  }

  /** The script run once at start-up on a fresh proxy: one handle opened on
      the path, then begin, script, commit, and nothing left open. */
  lemma ScriptOnFreshProxy(path: string, e: Engine, sql: string)
    ensures var r := ExecuteScript(Sys(New(path), e), sql);
            && r.cursor == Handle(e.openCount, path, false)
            && r.sys.engine.calls == e.calls
                 + [OpenCall(r.cursor), BeginCall(r.cursor), ScriptCall(r.cursor, sql), CommitCall(r.cursor)]
            && !r.sys.proxy.conn.value.inTxn
  {
  }
}

=== FILE: log_filters.dfy ===
/** The level filters of `filters` in src/core/log.py. A filter is built from
    level names, resolved once to the numbers of Python's `logging` module, and
    then tests the numeric level of each record against them. */
module LogFilters {
  import opened Results
  import opened Ascii

  /** The number `logging` binds to an upper-case name, if it is a level name. */
  function LevelNumber(upper: string): Option<int>
  {
    if upper == "CRITICAL" || upper == "FATAL" then Some(50)
    else if upper == "ERROR" then Some(40)
    else if upper == "WARNING" || upper == "WARN" then Some(30)
    else if upper == "INFO" then Some(20)
    else if upper == "DEBUG" then Some(10)
    else if upper == "NOTSET" then Some(0)
    else None
  }

  /** The upper-case names `logging` binds to a level. */
  const LevelNames: set<string> := {"CRITICAL", "FATAL", "ERROR", "WARNING", "WARN", "INFO", "DEBUG", "NOTSET"}

  /** `getattr(logging, name.upper())` for a level name: a name resolves iff
      its upper-case spelling is a level name, and levels are multiples of ten
      from 0 to 50. */
  function LevelOf(name: string): (r: Option<int>)
    ensures r.Some? <==> Upper(name) in LevelNames
    ensures r.Some? ==> 0 <= r.value <= 50 && r.value % 10 == 0
  {
    LevelNumber(Upper(name))
  }

  /** Resolution fails with the upper-cased name `logging` has no attribute for
      (AttributeError). */
  datatype FilterError = UnknownLevel(name: string)

  /** The argument of `_util`: a single name, or a list of names. */
  datatype Levels = One(name: string) | Many(names: seq<string>)

  /** What `_util` resolves its argument to before building the predicate. */
  datatype Target = Single(level: int) | Several(levels: seq<int>)

  datatype Cmp = EqCmp | NeCmp | GtCmp | GeCmp | LtCmp | LeCmp | InCmp | NotInCmp

  /** The predicate `_util` returns: its comparison and its resolved levels. */
  datatype Filter = Filter(cmp: Cmp, target: Target)

  /** The list comprehension of `_util`: every name resolved in order, failing
      on the first name that is not a level. */
  function ResolveAll(names: seq<string>): (r: Result<seq<int>, FilterError>)
    ensures r.Ok? <==> forall i :: 0 <= i < |names| ==> LevelOf(names[i]).Some?
    ensures r.Ok? ==> |r.value| == |names|
    ensures r.Ok? ==> forall i :: 0 <= i < |names| ==> LevelOf(names[i]) == Some(r.value[i])
    ensures r.Err? ==> exists i :: 0 <= i < |names| && Upper(names[i]) == r.error.name
                                   && LevelOf(names[i]).None?
                                   && forall j :: 0 <= j < i ==> LevelOf(names[j]).Some?
  {
    if names == [] then Ok([])
    else match LevelOf(names[0])
      case None => Err(UnknownLevel(Upper(names[0])))
      case Some(l) =>
        match ResolveAll(names[1..])
        case Err(e) => Err(e)
        case Ok(ls) => Ok([l] + ls)
  }

  /** `_util`'s resolution step. A one-element list is left out of the domain:
      the source calls `.upper()` on the list itself there and crashes. */
  function Resolve(levels: Levels): (r: Result<Target, FilterError>)
    requires !(levels.Many? && |levels.names| == 1)
    ensures levels.One? ==>
              && (r.Ok? <==> LevelOf(levels.name).Some?)
              && (r.Ok? ==> r.value == Single(LevelOf(levels.name).value))
              && (r.Err? ==> r.error == UnknownLevel(Upper(levels.name)))
    ensures levels.Many? ==>
              && (r.Ok? <==> forall i :: 0 <= i < |levels.names| ==> LevelOf(levels.names[i]).Some?)
              && (r.Ok? ==> r.value.Several? && |r.value.levels| == |levels.names|
                            && forall i :: 0 <= i < |levels.names| ==> LevelOf(levels.names[i]) == Some(r.value.levels[i]))
  {
    match levels
    case One(name) =>
      (match LevelOf(name)
       case None => Err(UnknownLevel(Upper(name)))
       case Some(l) => Ok(Single(l)))
    case Many(names) =>
      (match ResolveAll(names)
       case Err(e) => Err(e)
       case Ok(ls) => Ok(Several(ls)))
  }

  /** `_util(levels, comparefn)`. */
  function Build(levels: Levels, cmp: Cmp): (r: Result<Filter, FilterError>)
    requires !(levels.Many? && |levels.names| == 1)
    ensures r.Ok? <==> Resolve(levels).Ok?
    ensures r.Err? ==> r.error == Resolve(levels).error
    ensures r.Ok? ==> r.value.cmp == cmp && r.value.target == Resolve(levels).value
    ensures r.Ok? ==> (r.value.target.Single? <==> levels.One?)
  {
    match Resolve(levels)
    case Err(e) => Err(e)
    case Ok(t) => Ok(Filter(cmp, t))
  }

  /** Whether the comparison of a filter is defined on its target: the ordering
      comparisons need a single level, membership needs a list. */
  predicate WellTyped(f: Filter)
  {
    match f.cmp
    case InCmp | NotInCmp => f.target.Several?
    case _ => f.target.Single?
  }

  /** `_filter(record)`: `comparefn(record.levelno, levelno)`. The eight
      comparisons come in complementary pairs, and `in` on a list means equal
      to one of its elements. */
  predicate Accepts(f: Filter, levelno: int): (b: bool)
    requires WellTyped(f)
    ensures f.cmp in {EqCmp, NeCmp} ==> (b <==> (f.cmp == EqCmp) == (levelno == f.target.level))
    ensures f.cmp in {GtCmp, LeCmp} ==> (b <==> (f.cmp == GtCmp) == (levelno > f.target.level))
    ensures f.cmp in {GeCmp, LtCmp} ==> (b <==> (f.cmp == GeCmp) == (levelno >= f.target.level))
    ensures f.cmp in {InCmp, NotInCmp} ==>
              (b <==> (f.cmp == InCmp) == exists i :: 0 <= i < |f.target.levels| && f.target.levels[i] == levelno)
  {
    match f.cmp
    case EqCmp => levelno == f.target.level
    case NeCmp => levelno != f.target.level
    case GtCmp => levelno > f.target.level
    case GeCmp => levelno >= f.target.level
    case LtCmp => levelno < f.target.level
    case LeCmp => levelno <= f.target.level
    case InCmp => levelno in f.target.levels
    case NotInCmp => levelno !in f.target.levels
  }

  function Eq(name: string): (r: Result<Filter, FilterError>)
    ensures r.Ok? <==> LevelOf(name).Some?
    ensures r.Err? ==> r.error == UnknownLevel(Upper(name))
    ensures r.Ok? ==> WellTyped(r.value)
                      && forall lv :: Accepts(r.value, lv) <==> lv == LevelOf(name).value
  {
    Build(One(name), EqCmp)
  }

  function Ne(name: string): (r: Result<Filter, FilterError>)
    ensures r.Ok? <==> LevelOf(name).Some?
    ensures r.Ok? ==> WellTyped(r.value)
                      && forall lv :: Accepts(r.value, lv) <==> lv != LevelOf(name).value
  {
    Build(One(name), NeCmp)
  }

  function Gt(name: string): (r: Result<Filter, FilterError>)
    ensures r.Ok? <==> LevelOf(name).Some?
    ensures r.Ok? ==> WellTyped(r.value)
                      && forall lv :: Accepts(r.value, lv) <==> lv > LevelOf(name).value
  {
    Build(One(name), GtCmp)
  }

  function Ge(name: string): (r: Result<Filter, FilterError>)
    ensures r.Ok? <==> LevelOf(name).Some?
    ensures r.Ok? ==> WellTyped(r.value)
                      && forall lv :: Accepts(r.value, lv) <==> lv >= LevelOf(name).value
  {
    Build(One(name), GeCmp)
  }

  function Lt(name: string): (r: Result<Filter, FilterError>)
    ensures r.Ok? <==> LevelOf(name).Some?
    ensures r.Ok? ==> WellTyped(r.value)
                      && forall lv :: Accepts(r.value, lv) <==> lv < LevelOf(name).value
  {
    Build(One(name), LtCmp)
  }

  function Le(name: string): (r: Result<Filter, FilterError>)
    ensures r.Ok? <==> LevelOf(name).Some?
    ensures r.Ok? ==> WellTyped(r.value)
                      && forall lv :: Accepts(r.value, lv) <==> lv <= LevelOf(name).value
  {
    Build(One(name), LeCmp)
  }

  /** The level is one of the named levels. */
  predicate Named(names: seq<string>, lv: int)
  {
    exists i :: 0 <= i < |names| && LevelOf(names[i]) == Some(lv)
  }

  /** `include(names)`: a record passes when its level is among the named ones. */
  function Include(names: seq<string>): (r: Result<Filter, FilterError>)
    requires |names| != 1
    ensures r.Ok? <==> forall i :: 0 <= i < |names| ==> LevelOf(names[i]).Some?
    ensures r.Ok? ==> WellTyped(r.value)
                      && forall lv :: Accepts(r.value, lv) <==> Named(names, lv)
  {
    var r := Build(Many(names), InCmp);
    if r.Ok? then
      assert forall lv :: lv in r.value.target.levels <==> Named(names, lv) by {
        forall lv ensures lv in r.value.target.levels <==> Named(names, lv) {
          if lv in r.value.target.levels {
            var i :| 0 <= i < |r.value.target.levels| && r.value.target.levels[i] == lv;
            assert LevelOf(names[i]) == Some(lv);
          }
        }
      }
      r
    else r
  }

  /** `exlude(names)`: a record passes when its level is none of the named ones. */
  function Exclude(names: seq<string>): (r: Result<Filter, FilterError>)
    requires |names| != 1
    ensures r.Ok? <==> forall i :: 0 <= i < |names| ==> LevelOf(names[i]).Some?
    ensures r.Ok? ==> WellTyped(r.value)
                      && forall lv :: Accepts(r.value, lv) <==> !Named(names, lv)
  {
    var r := Build(Many(names), NotInCmp);
    if r.Ok? then
      assert forall lv :: lv in r.value.target.levels <==> Named(names, lv) by {
        forall lv ensures lv in r.value.target.levels <==> Named(names, lv) {
          if lv in r.value.target.levels {
            var i :| 0 <= i < |r.value.target.levels| && r.value.target.levels[i] == lv;
            assert LevelOf(names[i]) == Some(lv);
          }
        }
      }
      r
    else r
  }

  /** `ne` rejects exactly the records `eq` accepts. */
  lemma NeComplementsEq(name: string, lv: int)
    requires LevelOf(name).Some?
    ensures Eq(name).Ok? && Ne(name).Ok?
    ensures Accepts(Ne(name).value, lv) <==> !Accepts(Eq(name).value, lv)
  {
  }

  /** Every level is accepted by exactly one of `gt` and `le`, and by exactly
      one of `ge` and `lt`. */
  lemma OrderingFiltersSplit(name: string, lv: int)
    requires LevelOf(name).Some?
    ensures Gt(name).Ok? && Le(name).Ok? && Ge(name).Ok? && Lt(name).Ok?
    ensures Accepts(Gt(name).value, lv) != Accepts(Le(name).value, lv)
    ensures Accepts(Ge(name).value, lv) != Accepts(Lt(name).value, lv)
  {
  }

  /** `exlude` accepts exactly the records `include` rejects. */
  lemma ExcludeComplementsInclude(names: seq<string>, lv: int)
    requires |names| != 1
    requires Include(names).Ok?
    ensures Exclude(names).Ok?
    ensures Accepts(Exclude(names).value, lv) <==> !Accepts(Include(names).value, lv)
  {
  }

  /** Level names are case-insensitive: a name and its lower-case spelling
      build identical filters, for every comparison. */
  lemma CaseInsensitive(name: string, cmp: Cmp)
    ensures Build(One(Lower(name)), cmp) == Build(One(name), cmp)
  {
    UpperOfLower(name);
  }

  /** The same for lists: lower-casing every name changes no filter. */
  lemma {:induction false} CaseInsensitiveList(names: seq<string>)
    ensures ResolveAll(LowerAll(names)) == ResolveAll(names)
    decreases |names|
  {
    if names != [] {
      UpperOfLower(names[0]);
      assert LowerAll(names)[1..] == LowerAll(names[1..]);
      CaseInsensitiveList(names[1..]);
    }
  }

  function LowerAll(names: seq<string>): (r: seq<string>)
    ensures |r| == |names|
    ensures forall i :: 0 <= i < |names| ==> r[i] == Lower(names[i])
  {
    if names == [] then [] else [Lower(names[0])] + LowerAll(names[1..])
  }

  /** "info" and "INFO" both resolve to the number 20 of `logging.INFO`. */
  lemma InfoInAnyCase()
    ensures LevelOf("info") == LevelOf("INFO") == Some(20)
  {
    var u := Upper("info");
    assert u[0] == 'I' && u[1] == 'N' && u[2] == 'F' && u[3] == 'O';
    assert u == "INFO";
    var v := Upper("INFO");
    assert v[0] == 'I' && v[1] == 'N' && v[2] == 'F' && v[3] == 'O';
    assert v == "INFO";
  }
}

=== FILE: register.dfy ===
/** The client-side password checks of the registration page
    (static/auth/register.js). The page is reduced to the four values the two
    checks read and write, so both checks become pure functions of it. */
module Register {
  import opened Ascii

  /** The password and confirm input fields and the message spans under them. */
  datatype Page = Page(password: string, confirm: string, passwordMsg: string, confirmMsg: string)

  /** A check's return value together with the page it leaves behind. */
  datatype Checked = Checked(page: Page, accepted: bool)

  const PasswordRuleMsg: string :=
    "password must contain at least 8 characters, including at least one uppercase letter, one lowercase letter, and one number"

  const MismatchMsg: string := "passwords do not match"

  /** The three character classes the pattern looks ahead for. */
  datatype CharClass = Digit | LowerCase | UpperCase

  predicate InClass(cl: CharClass, c: char)
  {
    match cl
    case Digit => IsDigit(c)
    case LowerCase => IsLower(c)
    case UpperCase => IsUpper(c)
  }

  /** The characters a JavaScript `.` does not match. */
  predicate IsLineTerminator(c: char)
  {
    c == '\n' || c == '\r' || c as int == 0x2028 || c as int == 0x2029
  }

  /** The characters before position k are all matched by `.*`. */
  predicate DotsUpTo(s: string, k: int)
    requires 0 <= k <= |s|
  {
    forall j :: 0 <= j < k ==> !IsLineTerminator(s[j])
  }

  /** The lookahead `(?=.*X)` at the start of s, for the class X. */
  predicate LookaheadFinds(s: string, cl: CharClass)
  {
    exists k :: 0 <= k < |s| && InClass(cl, s[k]) && DotsUpTo(s, k)
  }

  /** `[0-9a-zA-Z]{8,}$` matched from the start: all of s is at least eight
      ASCII letters and digits. */
  predicate AlnumToEnd(s: string)
  {
    |s| >= 8 && forall i :: 0 <= i < |s| ==> IsAlnum(s[i])
  }

  /** `/^(?=.*\d)(?=.*[a-z])(?=.*[A-Z])[0-9a-zA-Z]{8,}$/.test(s)`. A match is
      at least eight characters long, all of them ASCII letters or digits. */
  predicate PatternMatches(s: string): (b: bool)
    ensures b ==> |s| >= 8 && forall i :: 0 <= i < |s| ==> IsAlnum(s[i])
    ensures b ==> Contains(s, Digit) && Contains(s, LowerCase) && Contains(s, UpperCase)
  {
    && LookaheadFinds(s, Digit)
    && LookaheadFinds(s, LowerCase)
    && LookaheadFinds(s, UpperCase)
    && AlnumToEnd(s)
  }

  predicate Contains(s: string, cl: CharClass)
  {
    exists i :: 0 <= i < |s| && InClass(cl, s[i])
  }

  /** The rule as the page's message states it in words. */
  predicate StrongPassword(s: string)
  {
    && |s| >= 8
    && (forall i :: 0 <= i < |s| ==> IsAlnum(s[i]))
    && Contains(s, Digit)
    && Contains(s, LowerCase)
    && Contains(s, UpperCase)
  }

  /** The regular expression accepts exactly the passwords the message describes. */
  lemma PatternMeansRule(s: string)
    ensures PatternMatches(s) <==> StrongPassword(s)
  {
  }

  lemma ShortPasswordRejected(s: string)
    requires |s| < 8
    ensures !PatternMatches(s)
  {
  }

  lemma ForeignCharacterRejected(s: string, i: int)
    requires 0 <= i < |s| && !IsAlnum(s[i])
    ensures !PatternMatches(s)
  {
  }

  /** A one-pass scan that decides the pattern: it gives up at the first
      character outside [0-9a-zA-Z] and otherwise records which classes it saw. */
  method MatchPassword(s: string) returns (ok: bool)
    ensures ok <==> PatternMatches(s)
  {
    var hasDigit, hasLower, hasUpper := false, false, false;
    var i := 0;
    while i < |s|
      invariant 0 <= i <= |s|
      invariant forall j :: 0 <= j < i ==> IsAlnum(s[j])
      invariant hasDigit <==> Contains(s[..i], Digit)
      invariant hasLower <==> Contains(s[..i], LowerCase)
      invariant hasUpper <==> Contains(s[..i], UpperCase)
    {
      var c := s[i];
      if !IsAlnum(c) {
        ForeignCharacterRejected(s, i);
        return false;
      }
      assert s[..i + 1] == s[..i] + [c];
      hasDigit := hasDigit || IsDigit(c);
      hasLower := hasLower || IsLower(c);
      hasUpper := hasUpper || IsUpper(c);
      i := i + 1;
    }
    assert s[..i] == s;
    PatternMeansRule(s);
    ok := |s| >= 8 && hasDigit && hasLower && hasUpper;
  }

  /** `pwd_check`: test the password field against the pattern; on failure show
      the rule and clear the field, on success clear the message. */
  function PwdCheck(p: Page): (r: Checked)
    ensures r.accepted <==> StrongPassword(p.password)
    ensures !r.accepted ==> r.page == p.(password := "", passwordMsg := PasswordRuleMsg)
    ensures r.accepted ==> r.page == p.(passwordMsg := "")
  {
    PatternMeansRule(p.password);
    if !PatternMatches(p.password) then
      Checked(p.(passwordMsg := PasswordRuleMsg, password := ""), false)
    else
      Checked(p.(passwordMsg := ""), true)
  }

  /** `pwd_comfirm`: compare the two fields; on mismatch show a message and
      clear the confirm field, on match clear the message. */
  function PwdConfirm(p: Page): (r: Checked)
    ensures r.accepted <==> p.confirm == p.password
    ensures r.page.password == p.password && r.page.passwordMsg == p.passwordMsg
    ensures !r.accepted ==> r.page.confirm == "" && r.page.confirmMsg == MismatchMsg
    ensures r.accepted ==> r.page == p.(confirmMsg := "")
  {
    if p.password != p.confirm then
      Checked(p.(confirmMsg := MismatchMsg, confirm := ""), false)
    else
      Checked(p.(confirmMsg := ""), true)
  }

  /** Running the password check twice is the same as running it once: an
      accepted password stays accepted, and a cleared field is rejected again. */
  lemma PwdCheckIdempotent(p: Page)
    ensures PwdCheck(PwdCheck(p).page) == PwdCheck(p)
  {
    if !PwdCheck(p).accepted {
      assert !StrongPassword("");
    }
  }

  /** A page that passes both checks in order holds a strong password that the
      confirm field repeats exactly. */
  lemma BothChecksPass(p: Page)
    requires PwdCheck(p).accepted
    requires PwdConfirm(PwdCheck(p).page).accepted
    ensures StrongPassword(p.password) && p.confirm == p.password
  {
  }

  /** After a rejected password the field is empty, so the confirm check then
      passes exactly when the confirm field is empty too. */
  lemma ConfirmAfterRejection(p: Page)
    requires !PwdCheck(p).accepted
    ensures PwdConfirm(PwdCheck(p).page).accepted <==> p.confirm == ""
  {
  }
}

=== FILE: registry.dfy ===
/** The two `get_db` functions: a lookup-or-insert on the per-request scope
    `flask.g` under the name "db". Both store the connection handle in the
    scope, not the proxy that opened it; the proxy is dropped once the handle
    is obtained. The configured database path is a parameter. */
module Registry {
  import opened Sqlite3
  import SqliteProxy
  import LegacyProxy

  /** `FLASK_DB_GLOBAL_NAME` in config.py. */
  const DbGlobalName: string := "db"

  /** An attribute of `flask.g`: a connection handle, or any other object some
      other code stored there. */
  datatype Attr = Connection(handle: Handle) | Foreign(tag: nat)

  type Scope = map<string, Attr>

  datatype Lookup = Lookup(scope: Scope, engine: Engine, db: Attr)

  /** Every attribute other than "db" is as it was. */
  predicate OthersUnchanged(before: Scope, after: Scope)
  {
    after - {DbGlobalName} == before - {DbGlobalName}
  }

  /** src/db/__init__.py `get_db`: the stored attribute if there is one;
      otherwise options pointing at `dbPath`, a new proxy on them, and its
      `get_conn()` stored and returned. */
  function GetDb(scope: Scope, engine: Engine, dbPath: string): (r: Lookup)
    ensures DbGlobalName in scope ==> r == Lookup(scope, engine, scope[DbGlobalName])
    ensures DbGlobalName !in scope ==>
              && r.db == Connection(Handle(engine.openCount, dbPath, true))
              && r.engine.openCount == engine.openCount + 1
              && r.engine.calls == engine.calls + [OpenCall(r.db.handle)]
    ensures DbGlobalName in r.scope && r.scope[DbGlobalName] == r.db
    ensures OthersUnchanged(scope, r.scope)
    ensures Sqlite3.Valid(engine) ==> Sqlite3.Valid(r.engine)
    ensures Sqlite3.Valid(engine) && DbGlobalName !in scope ==> r.db.handle.id in r.engine.live
  {
    if DbGlobalName in scope then Lookup(scope, engine, scope[DbGlobalName])
    else
      var options := SqliteProxy.DefaultOptions.(dbpath := dbPath);
      var proxy := SqliteProxy.New(options);
      var got := SqliteProxy.GetConn(SqliteProxy.Sys(proxy, engine));
      var db := Connection(got.handle);
      Lookup(scope[DbGlobalName := db], got.sys.engine, db)
  }

  /** db/__init__.py `get_db`: the stored attribute if there is one; otherwise
      a legacy proxy on `dbPath`, and the handle its `connect()` returns stored
      and returned. */
  function LegacyGetDb(scope: Scope, engine: Engine, dbPath: string): (r: Lookup)
    ensures DbGlobalName in scope ==> r == Lookup(scope, engine, scope[DbGlobalName])
    ensures DbGlobalName !in scope ==>
              && r.db == Connection(Handle(engine.openCount, dbPath, false))
              && r.engine.openCount == engine.openCount + 1
              && r.engine.calls == engine.calls + [OpenCall(r.db.handle)]
    ensures DbGlobalName in r.scope && r.scope[DbGlobalName] == r.db
    ensures OthersUnchanged(scope, r.scope)
    ensures Sqlite3.Valid(engine) ==> Sqlite3.Valid(r.engine)
    ensures Sqlite3.Valid(engine) && DbGlobalName !in scope ==> r.db.handle.id in r.engine.live
  {
    if DbGlobalName in scope then Lookup(scope, engine, scope[DbGlobalName])
    else
      var got := LegacyProxy.Connect(LegacyProxy.Sys(LegacyProxy.New(dbPath), engine));
      var db := Connection(got.handle);
      Lookup(scope[DbGlobalName := db], got.sys.engine, db)
  }

  /** Within one scope a second `get_db` returns the very value the first one
      did, opens nothing and changes nothing. */
  lemma GetDbTwice(scope: Scope, engine: Engine, dbPath: string)
    ensures var first := GetDb(scope, engine, dbPath);
            GetDb(first.scope, first.engine, dbPath) == first
  {
  }

  lemma LegacyGetDbTwice(scope: Scope, engine: Engine, dbPath: string)
    ensures var first := LegacyGetDb(scope, engine, dbPath);
            LegacyGetDb(first.scope, first.engine, dbPath) == first
  {
  }

  /** What `get_db` caches is what `get_conn` of a proxy on the configured path
      returns: a live autocommit handle, not the proxy. */
  lemma CachesTheConnection(scope: Scope, engine: Engine, dbPath: string)
    requires DbGlobalName !in scope
    ensures var proxy := SqliteProxy.New(SqliteProxy.Options(dbPath));
            GetDb(scope, engine, dbPath).db
              == Connection(SqliteProxy.GetConn(SqliteProxy.Sys(proxy, engine)).handle)
  {
  }

  /** The two versions disagree on the transaction mode of the handle they cache. */
  lemma VersionsDisagreeOnAutocommit(engine: Engine, dbPath: string)
    ensures GetDb(map[], engine, dbPath).db.handle.autocommit
    ensures !LegacyGetDb(map[], engine, dbPath).db.handle.autocommit
  {
  }
}

=== FILE: results.dfy ===
/** Failure-carrying values shared by the modules of this model. */
module Results {

  /** A value that may be absent: a Python `None` or a C++ null. */
  datatype Option<+T> = None | Some(value: T)

  /** The outcome of an operation that raises on failure in the source. */
  datatype Result<+T, +E> = Ok(value: T) | Err(error: E)

  /** What a proxy raises when one of its methods reaches for the handle while
      it holds `None` (an AttributeError in the source). */
  datatype ProxyError = NotConnected
}

=== FILE: rotation.dfy ===
/** The decision logic of `handlers.sized_timed_rotating_file_handler` in
    src/core/log.py: normalising the rotation unit, placing the next time
    boundary, and deciding whether a record triggers a rollover. The clock, the
    file size on disk and the formatted record length are parameters. */
module Rotation {
  import opened Results
  import opened Ascii

  const SecondsPerMinute: int := 60
  const SecondsPerHour: int := 60 * 60
  const SecondsPerDay: int := 60 * 60 * 24

  /** `get_interval_seconds` on a lower-cased unit: s, m, h and d are known, and
      every other unit counts as a day. */
  function IntervalSeconds(when: string): (r: int)
    ensures r in {1, SecondsPerMinute, SecondsPerHour, SecondsPerDay}
    ensures r == SecondsPerDay <==> when !in {"s", "m", "h"}
  {
    if when == "s" then 1
    else if when == "m" then SecondsPerMinute
    else if when == "h" then SecondsPerHour
    else if when == "d" then SecondsPerDay
    else SecondsPerDay
  }

  /** The unit as the constructor stores it and maps it to seconds. */
  function UnitSeconds(when: string): (r: int)
    ensures r in {1, SecondsPerMinute, SecondsPerHour, SecondsPerDay}
    ensures Lower(when) == "s" <==> r == 1
    ensures Lower(when) == "m" <==> r == SecondsPerMinute
    ensures Lower(when) == "h" <==> r == SecondsPerHour
    ensures r == SecondsPerDay <==> Lower(when) !in {"s", "m", "h"}
  {
    IntervalSeconds(Lower(when))
  }

  /** The unit is case-insensitive: "H" and "h" give the same interval. */
  lemma UnitCaseInsensitive(when: string)
    ensures UnitSeconds(Lower(when)) == UnitSeconds(when)
    ensures UnitSeconds(Upper(when)) == UnitSeconds(when)
  {
    LowerIdempotent(when);
    LowerOfUpper(when);
  }

  /** Python's floor division `a // d`. */
  function FloorDiv(a: int, d: int): (q: int)
    requires d != 0
    ensures d > 0 ==> d * q <= a < d * q + d
    ensures d < 0 ==> d * q + d < a <= d * q
  {
    if d > 0 then a / d else (-a) / (-d)
  }

  /** `compute_next_rollover`: `(now // interval + 1) * interval`. */
  function NextRollover(now: int, interval: int): (r: int)
    requires interval != 0
    ensures interval > 0 ==> now < r <= now + interval && r % interval == 0
    ensures interval < 0 ==> now + interval <= r < now
  {
    var q := FloorDiv(now, interval);
    assert (q + 1) * interval == q * interval + interval;
    if interval > 0 then
      assert ((q + 1) * interval) % interval == 0 by {
        MultipleMod(q + 1, interval);
      }
      (q + 1) * interval
    else
      (q + 1) * interval
  }

  /** A multiple of a positive d leaves no remainder. */
  lemma MultipleMod(k: int, d: int)
    requires d > 0
    ensures (k * d) % d == 0
  {
    var a := k * d;
    var x := k - a / d;
    assert x * d == a % d by {
      assert a == (a / d) * d + a % d;
      assert x * d == k * d - (a / d) * d;
    }
  }

  /** Multiplying by a non-negative number keeps the order. */
  lemma MulMono(a: int, b: int, d: int)
    requires d >= 0
    ensures a <= b ==> a * d <= b * d
  {
    if a <= b {
      assert b * d - a * d == (b - a) * d;
    }
  }

  /** For a positive interval the next boundary is the least multiple of the
      interval after `now`: no smaller multiple lies beyond `now`. */
  lemma NextRolloverIsLeast(now: int, interval: int, k: int)
    requires interval > 0
    requires k * interval > now
    ensures k * interval >= NextRollover(now, interval)
  {
    var q := FloorDiv(now, interval);
    MulMono(k, q, interval);
    assert k > q;
    MulMono(q + 1, k, interval);
  }

  /** What the handler keeps after construction. */
  datatype Handler = Handler(
    maxBytes: int,
    backupCount: int,
    when: string,
    interval: int,
    utc: bool,
    nextRolloverAt: int,
    currentSize: int)

  /** The constructor divides by the normalised interval when it is zero. */
  datatype RotationError = ZeroInterval

  /** `__init__`: lower-case the unit, normalise the interval to seconds, place
      the first boundary with `compute_next_rollover`, and take the current
      size from the file if it exists (`existingSize`) or zero otherwise. The
      clock and the file come first; the other parameters keep the source's
      defaults. */
  function NewHandler(now: int, existingSize: Option<nat>, maxBytes: int := 0, backupCount: int := 0,
                      when: string := "h", interval: int := 1, utc: bool := false): (r: Result<Handler, RotationError>)
    ensures r.Err? <==> interval == 0
    ensures r.Ok? ==> r.value.when == Lower(when)
                      && r.value.interval == interval * UnitSeconds(when)
                      && r.value.maxBytes == maxBytes
                      && r.value.backupCount == backupCount
                      && r.value.utc == utc
    ensures r.Ok? ==> r.value.interval != 0
                      && r.value.nextRolloverAt == NextRollover(now, r.value.interval)
    ensures r.Ok? && interval > 0 ==> now < r.value.nextRolloverAt <= now + r.value.interval
    ensures r.Ok? ==> r.value.currentSize == (if existingSize.Some? then existingSize.value else 0)
  {
    var seconds := interval * IntervalSeconds(Lower(when));
    if seconds == 0 then Err(ZeroInterval)
    else
      Ok(Handler(maxBytes, backupCount, Lower(when), seconds, utc,
                 NextRollover(now, seconds),
                 if existingSize.Some? then existingSize.value else 0))
  }

  /** `should_rollover`: 1 when the time boundary has been reached, else 2 when
      a positive size limit would be reached by writing the record, else 0. */
  function ShouldRollover(h: Handler, now: int, recordLen: nat): (r: int)
    ensures r in {0, 1, 2}
    ensures r == 1 <==> now >= h.nextRolloverAt
    ensures r == 2 <==> now < h.nextRolloverAt && h.maxBytes > 0
                        && h.currentSize + recordLen >= h.maxBytes
  {
    if now >= h.nextRolloverAt then 1
    else if h.maxBytes > 0 && h.currentSize + recordLen >= h.maxBytes then 2
    else 0
  }

  /** Once the time boundary is reached it stays reached, whatever is logged. */
  lemma DueStaysDue(h: Handler, now: int, later: int, len1: nat, len2: nat)
    requires ShouldRollover(h, now, len1) == 1
    requires now <= later
    ensures ShouldRollover(h, later, len2) == 1
  {
  }

  /** A zero or negative `max_bytes` disables the size trigger. */
  lemma NoLimitNoSizeTrigger(h: Handler, now: int, len: nat)
    requires h.maxBytes <= 0
    ensures ShouldRollover(h, now, len) != 2
  {
  }

  /** A longer record cannot undo a size trigger. */
  lemma SizeTriggerMonotone(h: Handler, now: int, len: nat, longer: nat)
    requires ShouldRollover(h, now, len) == 2
    requires len <= longer
    ensures ShouldRollover(h, now, longer) == 2
  {
  }

  /** A handler with a positive interval is not due by time at the instant it
      was built, nor at any instant before its first boundary. */
  lemma FreshHandlerNotDue(now: int, existingSize: Option<nat>, maxBytes: int, backupCount: int,
                           when: string, interval: int, utc: bool, at: int, len: nat)
    requires interval > 0
    requires at < NextRollover(now, interval * UnitSeconds(when))
    ensures NewHandler(now, existingSize, maxBytes, backupCount, when, interval, utc).Ok?
    ensures ShouldRollover(NewHandler(now, existingSize, maxBytes, backupCount, when, interval, utc).value, now, len) != 1
    ensures ShouldRollover(NewHandler(now, existingSize, maxBytes, backupCount, when, interval, utc).value, at, len) != 1
  {
  }

  /** A negative interval places the boundary before `now`, so such a handler
      is due by time from the moment it is built. */
  lemma NegativeIntervalAlwaysDue(now: int, existingSize: Option<nat>, maxBytes: int, backupCount: int,
                                  when: string, interval: int, utc: bool, len: nat)
    requires interval < 0
    ensures NewHandler(now, existingSize, maxBytes, backupCount, when, interval, utc).Ok?
    ensures ShouldRollover(NewHandler(now, existingSize, maxBytes, backupCount, when, interval, utc).value, now, len) == 1
  {
    assert UnitSeconds(when) > 0;
  }

  /** A handler built with every default rotates hourly, on the hour, and never
      by size: at the instant it is built nothing is due. */
  lemma DefaultHandlerHourly(now: int, existingSize: Option<nat>, len: nat)
    ensures NewHandler(now, existingSize).Ok?
    ensures var h := NewHandler(now, existingSize).value;
            && h.when == "h" && h.interval == SecondsPerHour
            && h.maxBytes == 0 && h.backupCount == 0 && !h.utc
            && h.nextRolloverAt % SecondsPerHour == 0
            && ShouldRollover(h, now, len) == 0
  {
    assert Lower("h") == "h" by {
      assert Lower("h")[0] == 'h';
    }
  }
}

=== FILE: singleton.dfy ===
/** `Singleton<T>::get_inst` of src/cxx/include/singleton.h: a static pointer
    that starts null and is set by the first call. The heap is reduced to a
    counter of the next free address, so each `new T()` yields a pointer no
    earlier allocation returned. */
module Singleton {

  datatype Ptr = Null | Addr(addr: nat)

  /** The static `inst_` together with the allocator's next free address. */
  datatype Slot = Slot(inst: Ptr, nextFree: nat)

  /** Every address the pointer can hold was handed out already. */
  predicate Valid(s: Slot)
  {
    s.inst.Addr? ==> s.inst.addr < s.nextFree
  }

  /** `inst_ = nullptr` before the first call. */
  function Start(nextFree: nat): (s: Slot)
    ensures s.inst == Null && Valid(s)
  {
    Slot(Null, nextFree)
  }

  datatype Got = Got(slot: Slot, ptr: Ptr)

  /** `get_inst`: allocate when the pointer is null, then return the pointer. */
  function GetInst(s: Slot): (r: Got)
    ensures r.ptr != Null && r.slot.inst == r.ptr
    ensures s.inst != Null ==> r == Got(s, s.inst)
    ensures s.inst == Null ==> r.ptr == Addr(s.nextFree) && r.slot.nextFree == s.nextFree + 1
    ensures Valid(s) ==> Valid(r.slot)
  {
    if s.inst == Null then
      var p := Addr(s.nextFree);
      Got(Slot(p, s.nextFree + 1), p)
    else Got(s, s.inst)
  }

  datatype Calls = Calls(slot: Slot, results: seq<Ptr>)

  /** n calls of `get_inst` in a row, with the pointer each returned. */
  function GetInstN(s: Slot, n: nat): (r: Calls)
    ensures |r.results| == n
    decreases n
  {
    if n == 0 then Calls(s, [])
    else
      var g := GetInst(s);
      var rest := GetInstN(g.slot, n - 1);
      Calls(rest.slot, [g.ptr] + rest.results)
  }

  /** Over any number of calls at most one allocation happens, and it happens
      exactly when the pointer started null and there was a call. */
  lemma {:induction false} AtMostOneAllocation(s: Slot, n: nat)
    ensures var r := GetInstN(s, n);
            r.slot.nextFree == s.nextFree + (if s.inst == Null && n > 0 then 1 else 0)
    decreases n
  {
    if n > 0 {
      AtMostOneAllocation(GetInst(s).slot, n - 1);
    }
  }

  /** Every call returns the same non-null pointer, and from the second call
      on nothing changes. */
  lemma {:induction false} AllCallsAgree(s: Slot, n: nat)
    requires n > 0
    ensures var r := GetInstN(s, n);
            && r.slot == GetInst(s).slot
            && forall i :: 0 <= i < n ==> r.results[i] == GetInst(s).ptr != Null
    decreases n
  {
    if n > 1 {
      var g := GetInst(s);
      AllCallsAgree(g.slot, n - 1);
      assert GetInst(g.slot) == g;
    }
  }

  /** From the start state the first call allocates the next free address and
      every call returns it. */
  lemma FromStart(nextFree: nat, n: nat)
    requires n > 0
    ensures var r := GetInstN(Start(nextFree), n);
            && r.slot == Slot(Addr(nextFree), nextFree + 1)
            && forall i :: 0 <= i < n ==> r.results[i] == Addr(nextFree)
  {
    AllCallsAgree(Start(nextFree), n);
  }
}

=== FILE: sqlite3.dfy ===
/** The sqlite3 library as the proxies see it: connections are opaque handles
    with a fresh number per `sqlite3.connect`, and every call a proxy makes on
    a handle is appended to a log. Statement results are not modelled. */
module Sqlite3 {
  import opened Results

  /** One `sqlite3.Connection`: its number, the database it was opened on and
      the `autocommit` flag it was opened with. */
  datatype Handle = Handle(id: nat, path: string, autocommit: bool)

  /** A call a proxy makes into the library. */
  datatype Call =
    | OpenCall(handle: Handle)
    | CloseCall(handle: Handle)
    | BeginCall(handle: Handle)
    | CommitCall(handle: Handle)
    | RollbackCall(handle: Handle)
    | ExecCall(handle: Handle, sql: string, params: seq<string>)
    | ScriptCall(handle: Handle, sql: string)

  /** How many handles were ever opened, which are still open, and the log. */
  datatype Engine = Engine(openCount: nat, live: set<nat>, calls: seq<Call>)

  const Initial: Engine := Engine(0, {}, [])

  /** Every open handle was handed out by an earlier `Open`. */
  predicate Valid(e: Engine)
  {
    forall id :: id in e.live ==> id < e.openCount
  }

  datatype Opened = Opened(engine: Engine, handle: Handle)

  /** `sqlite3.connect(database=path, autocommit=autocommit)`. */
  function Open(e: Engine, path: string, autocommit: bool): (r: Opened)
    ensures r.handle.path == path && r.handle.autocommit == autocommit
    ensures r.engine.openCount == e.openCount + 1
    ensures r.engine.live == e.live + {r.handle.id}
    ensures r.engine.calls == e.calls + [OpenCall(r.handle)]
    ensures Valid(e) ==> r.handle.id !in e.live && Valid(r.engine)
  {
    var h := Handle(e.openCount, path, autocommit);
    Opened(Engine(e.openCount + 1, e.live + {h.id}, e.calls + [OpenCall(h)]), h)
  }

  /** `handle.close()`. */
  function Close(e: Engine, h: Handle): (r: Engine)
    ensures r.openCount == e.openCount
    ensures r.live == e.live - {h.id}
    ensures r.calls == e.calls + [CloseCall(h)]
    ensures Valid(e) ==> Valid(r)
  {
    Engine(e.openCount, e.live - {h.id}, e.calls + [CloseCall(h)])
  }

  /** Any other call: logged, no handle opened or closed. */
  function Issue(e: Engine, c: Call): (r: Engine)
    ensures r.openCount == e.openCount && r.live == e.live
    ensures r.calls == e.calls + [c]
  {
    e.(calls := e.calls + [c])
  }

  /** `params or ()`: a missing parameter tuple becomes the empty one, and
      any tuple that is given is passed on as it is. */
  function ParamsOrEmpty(params: Option<seq<string>>): (r: seq<string>)
    ensures r == [] <==> params.None? || params.value == []
    ensures params.Some? ==> r == params.value
  {
    if params.Some? then params.value else []
  }
}

=== FILE: sqlite_proxy.dfy ===
/** `SQLiteProxy` of src/db/_sqlite.py with the `Proxy` base of src/db/base.py.
    The proxy holds its options and either no handle or one handle; the lock
    around each step is a no-op in this sequential model, and the base class
    hooks reached through `super()` have empty bodies, so they change nothing. */
module SqliteProxy {
  import opened Results
  import opened Sqlite3

  /** `SQLiteOptions`: where the database lives. */
  datatype Options = Options(dbpath: string)

  const MemoryPath: string := ":memory:"

  /** `SQLiteOptions()` before any field is set. */
  const DefaultOptions: Options := Options(MemoryPath)

  datatype Proxy = Proxy(options: Options, conn: Option<Handle>)

  /** A proxy together with the library it calls into. */
  datatype Sys = Sys(proxy: Proxy, engine: Engine)

  /** The cursor `execute` and `executescript` return: it belongs to the handle
      the statement ran on. */
  datatype Cursor = Cursor(handle: Handle)

  datatype Ran = Ran(sys: Sys, cursor: Cursor)

  datatype Got = Got(sys: Sys, handle: Handle)

  /** `SQLiteProxy(options)`. */
  function New(options: Options): (p: Proxy)
    ensures p.conn.None? && p.options == options
  {
    Proxy(options, None)
  }

  /** The proxy's handle, when it has one, is open, was opened on the proxy's
      database and runs in autocommit mode. */
  predicate Valid(s: Sys)
  {
    && Sqlite3.Valid(s.engine)
    && (s.proxy.conn.Some? ==>
          && s.proxy.conn.value.id in s.engine.live
          && s.proxy.conn.value.path == s.proxy.options.dbpath
          && s.proxy.conn.value.autocommit)
  }

  /** `connect`: open one autocommit handle on `options.dbpath` unless one is held. */
  function Connect(s: Sys): (r: Sys)
    ensures r.proxy.conn.Some? && r.proxy.options == s.proxy.options
    ensures s.proxy.conn.Some? ==> r == s
    ensures s.proxy.conn.None? ==>
              && r.proxy.conn.value == Handle(s.engine.openCount, s.proxy.options.dbpath, true)
              && r.engine.openCount == s.engine.openCount + 1
              && r.engine.live == s.engine.live + {r.proxy.conn.value.id}
              && r.engine.calls == s.engine.calls + [OpenCall(r.proxy.conn.value)]
    ensures Valid(s) ==> Valid(r)
  {
    if s.proxy.conn.None? then
      var o := Sqlite3.Open(s.engine, s.proxy.options.dbpath, true);
      Sys(s.proxy.(conn := Some(o.handle)), o.engine)
    else s
  }

  /** `close`: release the handle if one is held. */
  function Close(s: Sys): (r: Sys)
    ensures r.proxy.conn.None? && r.proxy.options == s.proxy.options
    ensures s.proxy.conn.None? ==> r == s
    ensures s.proxy.conn.Some? ==>
              && r.engine.calls == s.engine.calls + [CloseCall(s.proxy.conn.value)]
              && s.proxy.conn.value.id !in r.engine.live
              && r.engine.openCount == s.engine.openCount
    ensures Valid(s) ==> Valid(r)
  {
    match s.proxy.conn
    case None => s
    case Some(h) => Sys(s.proxy.(conn := None), Sqlite3.Close(s.engine, h))
  }

  /** `commit`: commit on the held handle; with none it fails, since commit
      does not connect first. */
  function Commit(s: Sys): (r: Result<Sys, ProxyError>)
    ensures r.Err? <==> s.proxy.conn.None?
    ensures r.Ok? ==> r.value.proxy == s.proxy
                      && r.value.engine.calls == s.engine.calls + [CommitCall(s.proxy.conn.value)]
                      && r.value.engine.live == s.engine.live
    ensures r.Ok? && Valid(s) ==> Valid(r.value)
  {
    match s.proxy.conn
    case None => Err(NotConnected)
    case Some(h) => Ok(Sys(s.proxy, Issue(s.engine, CommitCall(h))))
  }

  /** `execute`: connect if needed, then run one statement on the handle. */
  function Execute(s: Sys, sql: string, params: Option<seq<string>> := None): (r: Ran)
    ensures r.sys.proxy.conn == Some(r.cursor.handle)
    ensures r.sys.proxy.options == s.proxy.options
    ensures s.proxy.conn.Some? ==>
              && r.cursor.handle == s.proxy.conn.value
              && r.sys.engine.openCount == s.engine.openCount
              && r.sys.engine.calls == s.engine.calls + [ExecCall(r.cursor.handle, sql, ParamsOrEmpty(params))]
    ensures s.proxy.conn.None? ==>
              && r.sys.engine.openCount == s.engine.openCount + 1
              && r.sys.engine.calls == s.engine.calls
                   + [OpenCall(r.cursor.handle), ExecCall(r.cursor.handle, sql, ParamsOrEmpty(params))]
    ensures Valid(s) ==> Valid(r.sys)
  {
    var c := Connect(s);
    var h := c.proxy.conn.value;
    Ran(Sys(c.proxy, Issue(c.engine, ExecCall(h, sql, ParamsOrEmpty(params)))), Cursor(h))
  }

  /** `executescript`: connect if needed, then hand the script to the handle. */
  function ExecuteScript(s: Sys, sql: string): (r: Ran)
    ensures r.sys.proxy.conn == Some(r.cursor.handle)
    ensures r.sys.proxy.options == s.proxy.options
    ensures s.proxy.conn.Some? ==>
              && r.cursor.handle == s.proxy.conn.value
              && r.sys.engine.openCount == s.engine.openCount
              && r.sys.engine.calls == s.engine.calls + [ScriptCall(r.cursor.handle, sql)]
    ensures s.proxy.conn.None? ==>
              && r.sys.engine.openCount == s.engine.openCount + 1
              && r.sys.engine.calls == s.engine.calls + [OpenCall(r.cursor.handle), ScriptCall(r.cursor.handle, sql)]
    ensures Valid(s) ==> Valid(r.sys)
  {
    var c := Connect(s);
    var h := c.proxy.conn.value;
    Ran(Sys(c.proxy, Issue(c.engine, ScriptCall(h, sql))), Cursor(h))
  }

  /** `Proxy.get_conn`: the held handle, connecting first if there is none. */
  function GetConn(s: Sys): (r: Got)
    ensures r.sys.proxy.conn == Some(r.handle)
    ensures s.proxy.conn.Some? ==> r.sys == s && r.handle == s.proxy.conn.value
    ensures s.proxy.conn.None? ==> r.sys == Connect(s)
    ensures Valid(s) ==> Valid(r.sys) && r.handle.id in r.sys.engine.live
  {
    var c := if s.proxy.conn.None? then Connect(s) else s;
    Got(c, c.proxy.conn.value)
  }

  /** `Proxy.get_options`: the options are all a proxy is built from, so a new
      proxy on them is this one without its handle. */
  function GetOptions(p: Proxy): (o: Options)
    ensures New(o) == p.(conn := None)
  {
    p.options
  }

  /** No operation rebinds the options. */
  lemma {:induction false} RunKeepsOptions(s: Sys, ops: seq<Op>)
    requires Run(s, ops).Ok?
    ensures GetOptions(Run(s, ops).value.proxy) == GetOptions(s.proxy)
    decreases |ops|
  {
    if ops != [] {
      RunKeepsOptions(Step(s, ops[0]).value, ops[1..]);
    }
  }

  /** `get_options` returns the options the proxy was built with, whatever
      operations ran since. */
  lemma OptionsBoundAtConstruction(options: Options, e: Engine, ops: seq<Op>)
    requires Run(Sys(New(options), e), ops).Ok?
    ensures GetOptions(Run(Sys(New(options), e), ops).value.proxy) == options
  {
    RunKeepsOptions(Sys(New(options), e), ops);
  }

  /** The operations a caller can apply to a proxy. */
  datatype Op =
    | ConnectOp
    | CloseOp
    | CommitOp
    | ExecuteOp(sql: string, params: Option<seq<string>>)
    | ScriptOp(sql: string)
    | GetConnOp

  function Step(s: Sys, op: Op): Result<Sys, ProxyError>
  {
    match op
    case ConnectOp => Ok(Connect(s))
    case CloseOp => Ok(Close(s))
    case CommitOp => Commit(s)
    case ExecuteOp(sql, params) => Ok(Execute(s, sql, params).sys)
    case ScriptOp(sql) => Ok(ExecuteScript(s, sql).sys)
    case GetConnOp => Ok(GetConn(s).sys)
  }

  /** Apply the operations in order, stopping at the first that raises. */
  function Run(s: Sys, ops: seq<Op>): Result<Sys, ProxyError>
    decreases |ops|
  {
    if ops == [] then Ok(s)
    else match Step(s, ops[0])
      case Err(e) => Err(e)
      case Ok(t) => Run(t, ops[1..])
  }

  /** Every sequence of operations keeps the proxy valid and only ever
      appends to the library log. */
  lemma {:induction false} RunPreservesValid(s: Sys, ops: seq<Op>)
    requires Valid(s)
    requires Run(s, ops).Ok?
    ensures Valid(Run(s, ops).value)
    ensures s.engine.calls <= Run(s, ops).value.engine.calls
    decreases |ops|
  {
    if ops != [] {
      var t := Step(s, ops[0]).value;
      RunPreservesValid(t, ops[1..]);
    }
  }

  /** At most one live handle per proxy: the library's open handles are
      exactly the one the proxy holds, or none when it holds none. */
  predicate OneLive(s: Sys)
  {
    s.engine.live == (if s.proxy.conn.Some? then {s.proxy.conn.value.id} else {})
  }

  /** Connect opens only from no handle and close closes before forgetting,
      so no sequence of operations leaves a second handle open. */
  lemma {:induction false} RunKeepsOneLive(s: Sys, ops: seq<Op>)
    requires OneLive(s)
    requires Run(s, ops).Ok?
    ensures OneLive(Run(s, ops).value)
    decreases |ops|
  {
    if ops != [] {
      var t := Step(s, ops[0]).value;
      RunKeepsOneLive(t, ops[1..]);
    }
  }

  /** A proxy built on a fresh library never has more than its one handle open. */
  lemma FreshProxyOneLive(o: Options, ops: seq<Op>)
    requires Run(Sys(New(o), Initial), ops).Ok?
    ensures OneLive(Run(Sys(New(o), Initial), ops).value)
  {
    RunKeepsOneLive(Sys(New(o), Initial), ops);
  }

  predicate NoClose(ops: seq<Op>)
  {
    forall i :: 0 <= i < |ops| ==> ops[i] != CloseOp
  }

  /** While nobody closes it, a connected proxy keeps its handle through every
      operation and never opens a second one. */
  lemma {:induction false} HandleStableWithoutClose(s: Sys, ops: seq<Op>)
    requires s.proxy.conn.Some?
    requires NoClose(ops)
    requires Run(s, ops).Ok?
    ensures Run(s, ops).value.proxy.conn == s.proxy.conn
    ensures Run(s, ops).value.engine.openCount == s.engine.openCount
    decreases |ops|
  {
    if ops != [] {
      var t := Step(s, ops[0]).value;
      assert t.proxy.conn == s.proxy.conn && t.engine.openCount == s.engine.openCount;
      HandleStableWithoutClose(t, ops[1..]);
    }
  }

  /** Connecting twice is connecting once. */
  lemma ConnectIdempotent(s: Sys)
    ensures Connect(Connect(s)) == Connect(s)
  {
  }

  /** Closing twice is closing once. */
  lemma CloseIdempotent(s: Sys)
    ensures Close(Close(s)) == Close(s)
  {
  }

  /** Repeated `get_conn` calls return the same handle and change nothing. */
  lemma GetConnRepeats(s: Sys)
    ensures GetConn(GetConn(s).sys) == Got(GetConn(s).sys, GetConn(s).handle)
  {
  }

  /** After `close`, `execute` reconnects on a fresh handle, distinct from the
      closed one. */
  lemma ExecuteAfterClose(s: Sys, sql: string, params: Option<seq<string>>)
    requires Valid(s) && s.proxy.conn.Some?
    ensures Execute(Close(s), sql, params).cursor.handle.id == s.engine.openCount
    ensures Execute(Close(s), sql, params).cursor.handle != s.proxy.conn.value
    ensures Valid(Execute(Close(s), sql, params).sys)
  {
  }

  /** A proxy built from default options opens an in-memory database. */
  lemma DefaultOptionsInMemory(e: Engine, sql: string)
    ensures Execute(Sys(New(DefaultOptions), e), sql, None).cursor.handle.path == ":memory:"
  {
  }

  /** `commit` on a fresh proxy fails and does not connect. */
  lemma CommitBeforeConnectFails(options: Options, e: Engine)
    ensures Commit(Sys(New(options), e)).Err?
  {
  }
}
